=== FILE: README.md ===
# i18nliner call helpers in Dafny

This project models `CallHelpers` from i18nliner-js (`dist/lib/call_helpers.js`).
`CallHelpers` is the argument-shape engine behind a translate call. It covers four things:

- **Signature inference.** `isKeyProvided` and `inferArguments` take the one to
  three loosely typed arguments of `t(...)`. They rewrite them into the canonical
  pair `[key, options]` and move the default value into `options.defaultValue`.
- **Classification.** `isObject`, `isPluralizationHash`, `validDefault` and the
  dotted-key regular expression `keyPattern` decide what each argument is.
- **Key inference.** `inferKey` derives a key from a default. It calls
  `inferPluralizationHash` / `normalizeDefault` (plural shorthand expansion) and
  `keyify`, which has the formats raw, `underscored` and `underscored_crc32`.
- **Wrapper application.** `applyWrappers` and `applyWrapper` inject markup
  into a translated string at spans marked by `*`, `**`, … or by named
  delimiters.

The model is functional. JavaScript values are the datatype `JsValues.Value`:
undefined, null, booleans, integers, strings, objects, arrays and the
`UNSUPPORTED_EXPRESSION` sentinel. Objects carry their key order, as
`Utils.keys` reports it. In the source, the caller's argument array and options
object are changed in place; here the updated argument list is returned. The
`meta.inferredKey` flag is returned next to it.

Some things are parameters of the model:

- `getSlug`, `pluralize` and `crc32(...).toString(16)` are uninterpreted
  functions of a `KeyInference.Collaborators` record.
- The process-wide settings `I18nliner.inferredKeyFormat` and
  `I18nliner.underscoredKeyLength` form a `KeyInference.Config`.

Modules, one per concern, in dependency order:

| file | module | contents |
|---|---|---|
| `js_values.dfy` | `JsValues` | values, truthiness, `typeof`, property read/write, `Utils.keys` order, `"" + x` |
| `patterns.dfy` | `Patterns` | `\w`, `^[\w-]+$`, and `keyPattern` with a proof that the split-based matcher is the regular expression |
| `classification.dfy` | `Classification` | `isObject`, `Utils.difference`, `isPluralizationHash`, `validDefault` |
| `key_inference.dfy` | `KeyInference` | `inferPluralizationHash`, `normalizeDefault`, the `keyify` family, `inferKey` |
| `argument_inference.dfy` | `ArgumentInference` | `isKeyProvided`, `inferArguments` and the documented call shapes |
| `wrapper_application.dfy` | `WrapperApplication` | `applyWrapper` as a first-match search, `applyWrappers` for strings, arrays and mappings |

Two behaviours of the source are modelled as written.

1. `inferKey` calls `this.validDefault(defaultValue)` (line 43). `validDefault`
   judges `this.defaultValue` (line 36) and takes its argument only as
   `allowBlank`. With the helpers object as `this`, that field is unset, so the
   test passes exactly when the default is truthy:
   - `inferKey("")` and `inferKey(0)` return `undefined`;
   - `inferKey(5)` keyifies the number.
2. `inferArguments` calls `inferKey(args[0])` without options (line 110), so an
   inferred key never goes through plural expansion.

## Model

| member | source | states |
|---|---|---|
| `JsValues.SetField` | dist/lib/call_helpers.js:115 | `options.defaultValue = x` makes `defaultValue` read back as `x`. Every other property reads as before. A well-formed object stays well formed. |
| `Patterns.KeyPatternCorrect` | dist/lib/call_helpers.js:71 | The dot-splitting matcher accepts exactly the strings of `^(\w+\.)+\w+$`: at least two non-empty `\w+` segments joined by dots. |
| `Classification.Difference` | dist/lib/call_helpers.js:99 | `Utils.difference(a, b)` holds exactly the elements of `a` that are not in `b`, and is no longer than `a`. |
| `Classification.PluralizationHashByKeySet` | dist/lib/call_helpers.js:94-100 | `isPluralizationHash(o)` holds iff `o` is an object, its key set is non-empty, and that set lies within `ALLOWED_PLURALIZATION_KEYS`. The order of the keys does not matter. |
| `Classification.PluralizationHashOfObject` | dist/lib/call_helpers.js:94-100 | A plain object is a pluralization hash iff it has at least one property and every property is one of zero/one/few/many/other. |
| `Classification.PluralizationHashOfArray` | dist/lib/call_helpers.js:94-100 | An array is a pluralization hash iff it has no elements and its named properties are a non-empty set of allowed keys. An index such as "0" is never allowed. |
| `Classification.ValidDefaultWithUnsetField` | dist/lib/call_helpers.js:35-40 | With `this.defaultValue` unset, `validDefault(x)` holds exactly when `x` is truthy. |
| `Classification.ValidDefaultAllowingBlank` | dist/lib/call_helpers.js:31-40 | For a given `defaultValue`, `validDefault` accepts a string, null, an object or an array (`isObject` admits null and excludes the sentinel). It accepts undefined too when blanks are allowed. |
| `KeyInference.InferPluralizationHash` | dist/lib/call_helpers.js:22-29 | A bare word (`^[\w-]+$`) with a truthy `count` option becomes an object with exactly the keys `one` and `other`, in that order. `one` holds `"1 " + d` and `other` holds `"%{count} " + pluralize(d)`. Every other input comes back unchanged. |
| `KeyInference.NormalizeDefault` | dist/lib/call_helpers.js:17-20 | An expanded default is exactly the `{one, other}` expansion of `inferPluralizationHash`, and so a pluralization hash. A default that is not expanded is returned as it is. |
| `KeyInference.ExpansionHasRequiredKeys` | dist/lib/call_helpers.js:10 | An expansion carries exactly the `REQUIRED_PLURALIZATION_KEYS`. |
| `KeyInference.NoExpansionWithoutOptions` | dist/lib/call_helpers.js:23 | Without truthy options, normalization never changes a default. |
| `KeyInference.PluralExpansionExample` | dist/lib/call_helpers.js:22-29 | `"cat"` with `{count: 3}` expands to `{one: "1 cat", other: "%{count} cats"}`. `"cat"` with `{}` is left alone. |
| `KeyInference.CollapseSeparators` | dist/lib/call_helpers.js:51 | `replace(/[-_]+/g, '_')` leaves no hyphen and no double underscore, and never lengthens the string. A leading run of separators becomes one underscore. |
| `KeyInference.CollapseConcat` | dist/lib/call_helpers.js:51 | Cut after a character that is not `-` or `_`, a string collapses piece by piece: the global replacement treats each run on its own. |
| `KeyInference.RunCollapses` | dist/lib/call_helpers.js:51 | A whole run of `-` and `_` in front of other text becomes one underscore. |
| `KeyInference.InnerRunCollapses` | dist/lib/call_helpers.js:51 | A run of `-` and `_` between two other characters becomes exactly one underscore, as in `"a-b"` and `"a__b"` to `"a_b"`. |
| `KeyInference.CleanKeyMeans` | dist/lib/call_helpers.js:51 | A collapsed key has no `-` at any index and no `_` followed by `_`. |
| `KeyInference.CleanPrefix` | dist/lib/call_helpers.js:52 | Cutting such a key short with `substring` keeps it free of hyphens and double underscores. |
| `KeyInference.CollapseKeepsLetters` | dist/lib/call_helpers.js:51 | Collapsing keeps every character other than `-` and `_`, in order. |
| `KeyInference.CollapseFixesCleanKeys` | dist/lib/call_helpers.js:51 | A string with no hyphen and no double underscore is left unchanged by collapsing. |
| `KeyInference.CollapseIdempotent` | dist/lib/call_helpers.js:51 | Collapsing twice gives the same result as collapsing once. |
| `KeyInference.Truncate` | dist/lib/call_helpers.js:52 | `substring(0, n)` is the prefix of length exactly `min(|s|, n)`: the whole string when it is short enough, otherwise its first `n` characters. |
| `KeyInference.KeyifyUnderscored` | dist/lib/call_helpers.js:50-53 | The key is no longer than `underscoredKeyLength`. It has no hyphen and no double underscore. It is the prefix of the collapsed slug whose length is exactly the smaller of the slug's length and `underscoredKeyLength`. |
| `KeyInference.KeyifyUnderscoredCrc32` | dist/lib/call_helpers.js:55-58 | The key is the underscored key, then `_`, then the hex checksum of `length + ":" + string`. The input must not be `undefined` or `null`, for which reading `length` throws. |
| `KeyInference.ChecksumOfString` | dist/lib/call_helpers.js:56 | For a string, the checksummed text is its decimal length, a colon, and the string. |
| `KeyInference.Keyify` | dist/lib/call_helpers.js:60-69 | Any format other than the two underscored ones returns the input unchanged. `underscored` yields exactly the underscored key: the short, clean prefix of the collapsed slug. `underscored_crc32` yields that key, then `_`, then exactly the hex checksum of `length + ":" + string`; it requires an input other than `undefined` or `null`. A defined input never gives `undefined`. |
| `KeyInference.ObjectDefaultText` | dist/lib/call_helpers.js:44-45 | `"" + d.other` is the string form of the `other` property, or `"undefined"` when it is missing. |
| `KeyInference.InferKey` | dist/lib/call_helpers.js:42-48 | `inferKey` returns `undefined` exactly for falsy defaults. An object default is keyed by its `other` text after normalization; any other truthy default by its own normalized value. |
| `KeyInference.InferKeyWithoutOptions` | dist/lib/call_helpers.js:42-48 | Called without options, as `inferArguments` does, the key is the keyified default with no plural expansion. With the raw format, a truthy string default is its own key. |
| `ArgumentInference.IsKeyProvidedDecision` | dist/lib/call_helpers.js:82-92 | The ordered tests come to one formula: a key is provided iff the first argument is not `typeof 'object'` and at least one holds: the second is a string, the third is truthy, or the first is a string matching `^(\w+\.)+\w+$`. |
| `ArgumentInference.WithKey` | dist/lib/call_helpers.js:109-110 | When no key is provided, the inferred key goes in front and the original arguments shift right by one. Otherwise the list is untouched. |
| `ArgumentInference.MoveDefault` | dist/lib/call_helpers.js:111-117 | When there are options, or the second slot is a string or a pluralization hash, the options slot becomes `args[2] \|\| {}`. If it is an object, the old second slot becomes its `defaultValue` and leaves the list. Otherwise nothing moves: with no object in the options slot the list comes back unchanged. The key stays first. |
| `ArgumentInference.InferArguments` | dist/lib/call_helpers.js:102-121 | On the fast path (two arguments, the second an object with a truthy `defaultValue`), the arguments come back unchanged and `meta` is untouched. Otherwise `meta.inferredKey` is `!hasKey`; the first slot is the given key or the one inferred from `args[0]` without options; the slots are exactly those of the default move, padded with `{}` when only the key is left (lines 118-119); and at least two slots are returned. |
| `ArgumentInference.SignatureKey` | dist/lib/call_helpers.js:76 | `t(key)` becomes `[key, {}]`, with `inferredKey` false. |
| `ArgumentInference.SignatureKeyOptions` | dist/lib/call_helpers.js:76 | `t(key, options)` keeps its arguments, unless the options are themselves shaped like a pluralization hash. |
| `ArgumentInference.SignatureKeyDefault` | dist/lib/call_helpers.js:77 | `t(key, "default")` becomes `[key, {defaultValue: "default"}]`. |
| `ArgumentInference.SignatureKeyDefaultOptions` | dist/lib/call_helpers.js:77-78 | `t(key, default, options)` becomes `[key, options]` with `options.defaultValue` set to the default, whether it is a string or an object. |
| `ArgumentInference.SignatureDefault` | dist/lib/call_helpers.js:79 | `t("default")` with a non-key string becomes `[inferKey("default"), {defaultValue: "default"}]`, with `inferredKey` true. |
| `ArgumentInference.SignatureDefaultOptions` | dist/lib/call_helpers.js:79 | `t("default", options)` becomes `[inferKey("default"), options + defaultValue]`. The key is inferred without the options. |
| `ArgumentInference.SignatureObjectOptions` | dist/lib/call_helpers.js:80 | `t(defaultObject, options)` becomes `[inferKey(defaultObject), options + defaultValue]`. |
| `ArgumentInference.CanonicalIsFixedPoint` | dist/lib/call_helpers.js:103-104 | A result of the form `[key, options with a truthy default]` is returned unchanged by a second inference. |
| `ArgumentInference.CatExample` | dist/lib/call_helpers.js:102-121 | With the raw format, `["cat", {count: 3}]` becomes `["cat", {count: 3, defaultValue: "cat"}]`, with `inferredKey` true. |
| `WrapperApplication.ExpandTemplate` | dist/lib/call_helpers.js:145 | A replacement template without `$` is inserted as it is. |
| `WrapperApplication.ExpandWithoutGroup` | dist/lib/call_helpers.js:145 | A template with no `$1` in it is inserted as it is: any other `$`, such as `$2`, `$x` or a trailing `$`, is kept literally. |
| `WrapperApplication.ExpandFirstGroup` | dist/lib/call_helpers.js:145 | In a template, `$1` is replaced by the inner text of the match, and the text before it is kept as it is. |
| `WrapperApplication.FindClose` | dist/lib/call_helpers.js:144 | From an opening delimiter, the search finds the nearest closing delimiter, with no line terminator between the two. If it fails, there is none. |
| `WrapperApplication.FindOpen` | dist/lib/call_helpers.js:144 | The search finds the leftmost opening delimiter that has a closing one; if it fails, the string has no match. |
| `WrapperApplication.FirstMatchFound` | dist/lib/call_helpers.js:144-145 | The regular expression has at most one first match: leftmost start, then nearest end. The search returns that match, and returns nothing exactly when no match exists. |
| `WrapperApplication.ApplyWrapper` | dist/lib/call_helpers.js:142-146 | Only the first `d…d` span is replaced: leftmost start, shortest inner text without a line terminator, delimiter taken literally. The text before and after it is kept, and a string without a match is returned unchanged. |
| `WrapperApplication.Stars` | dist/lib/call_helpers.js:131 | `new Array(i + 1).join("*")` is `i` asterisks. |
| `WrapperApplication.ListPlan` | dist/lib/call_helpers.js:130-131 | An array is applied from its last element to its first. Element `k` is applied with `k + 1` asterisks. |
| `WrapperApplication.ApplyListFollowsPlan` | dist/lib/call_helpers.js:130-131 | The countdown loop applies exactly the steps of that plan, in that order. |
| `WrapperApplication.InsertByLength` | dist/lib/call_helpers.js:135 | Inserting a key keeps the multiset of keys plus the new key, and keeps a longest-first list longest first. |
| `WrapperApplication.SortByLengthDesc` | dist/lib/call_helpers.js:135 | The sort is a permutation of the keys, and longer keys come first. |
| `WrapperApplication.NamedPlan` | dist/lib/call_helpers.js:134-137 | A mapping is applied once per key, with that key's wrapper, longest delimiter first. |
| `WrapperApplication.ApplyWrappers` | dist/lib/call_helpers.js:123-140 | A string wrapper is the one-element array, applied with `*`. An array follows its countdown plan. A mapping follows its longest-first plan. |
| `WrapperApplication.SortedArrangementUnique` | dist/lib/call_helpers.js:135 | When no two keys have the same length, only one longest-first arrangement of a collection of keys exists. |
| `WrapperApplication.NamedOrderIrrelevant` | dist/lib/call_helpers.js:134-137 | When no two delimiters have the same length, the order in which the mapping lists its keys does not change the result. |
| `WrapperApplication.SingleStarExample` | dist/lib/call_helpers.js:127-131 | `applyWrappers("a *b* c", "<b>$1</b>")` gives `"a <b>b</b> c"`, and so does the one-element array `["<b>$1</b>"]`. |
| `WrapperApplication.LongestDelimiterFirstExample` | dist/lib/call_helpers.js:134-137 | With `*` and `**` in a mapping, `**` is applied before `*`, whatever order the mapping lists them in. |

## Left out

- Module wiring (lines 1-6 and 149): the `require` calls and the export.
- `normalizeKey` (lines 13-15): it returns its argument and nothing in this file calls it.
- `getSlug`, `pluralize`, `crc32` and `Utils.regexpEscape` internals: the first three are
  uninterpreted functions. Escaping is modelled by matching the delimiter literally.
- `Utils.keys`: taken to report array indices in ascending order, then named
  properties in insertion order. Integer-like property names of plain objects
  are not moved to the front as a JavaScript engine would move them.
- `String.prototype.replace` patterns other than `$1` (`$&`, `$$`, `` $` ``, …):
  a template is expanded for `$1` only. A callback is given the match and the
  inner text, not the offset and the whole string.
- A single function passed as `wrappers`: it is neither a string nor an array,
  and its `Utils.keys` enumeration is not part of this model.
- `WrapperApplication.SortByLengthDesc`: stability (keys of equal length keep
  their relative order) holds of the insertion sort but is not stated as a
  contract. Order independence is proved only for delimiters of distinct
  lengths.
- `KeyInference.KeyifyUnderscoredCrc32`: it requires an input other than `undefined` or
  `null`, since reading `length` of those throws at line 56. The same holds of
  `KeyInference.Keyify` in the `underscored_crc32` format. `inferKey` only keyifies truthy
  defaults, so the thrown error is not part of this model.
- `ArgumentInference.InferArguments`: it requires `NullSafe`. A `null` second
  argument of two makes line 103 throw, and `Utils.keys(null)` at line 97 is
  not part of this model, so both inputs are excluded.
- `ArgumentInference.InferArguments`: the case without a `meta` argument is not
  modelled separately. The flag is always returned, and a caller without `meta`
  ignores it.
- Aliasing: the source changes the caller's array and options object in place.
  The model returns new values, so effects seen through other references to the
  same object are not represented.
- `I18nliner.underscoredKeyLength` is taken to be a non-negative integer. With a
  negative setting `substring` would give the empty string, and with an unset one
  the whole slug; neither case is modelled.
- Numbers are integers: floating point, `NaN` and the decimal printing of
  fractions are not modelled.
- String lengths count characters, not UTF-16 code units. They differ only for
  characters outside the Basic Multilingual Plane.
- `I18nliner.inferredKeyFormat` is a string here. A non-string setting falls to
  the `default` branch in the source too.

=== FILE: argument_inference.dfy ===
/**
 `inferArguments`: rewriting the one to three loosely typed arguments of a
 translate call into the canonical pair `[key, options]`, with the default
 value moved into `options.defaultValue`. The documented call shapes are

   key [, options]
   key, default_string [, options]
   key, default_object, options
   default_string [, options]
   default_object, options

 The caller's array and options object are updated in place in the source;
 here the updated list is returned, and the `meta.inferredKey` flag is
 returned alongside it (`None` when the flag is left untouched).
 */
module ArgumentInference {
  import opened JsValues
  import opened Patterns
  import opened Classification
  import opened KeyInference

  datatype Inference = Inference(args: seq<Value>, inferredKey: Option<bool>)

  /** `args[i]`: `undefined` past the end of the list. */
  function Arg(args: seq<Value>, i: nat): (r: Value)
    ensures i < |args| ==> r == args[i]
    ensures i >= |args| ==> r == Undef
  {
    if i < |args| then args[i] else Undef
  }

  /** `isKeyProvided`: the ordered tests that decide whether the first
      argument is a key or a default to derive one from. */
  predicate IsKeyProvided(keyOrDefault: Value, defaultOrOptions: Value, maybeOptions: Value)
  {
    if IsTypeofObject(keyOrDefault) then false
    else if defaultOrOptions.Str? then true
    else if Truthy(maybeOptions) then true
    else if keyOrDefault.Str? && MatchesKeyPattern(keyOrDefault.s) then true
    else false
  }

  /** The decision in one formula, with the key pattern read as the regular
      expression `^(\w+\.)+\w+$` itself. */
  lemma IsKeyProvidedDecision(a: Value, b: Value, c: Value)
    ensures IsKeyProvided(a, b, c) <==>
      !IsTypeofObject(a) && (b.Str? || Truthy(c) || (a.Str? && KeyPatternSpec(a.s)))
  {
    if a.Str? {
      KeyPatternCorrect(a.s);
    }
  }

  /** `isKeyProvided.apply(this, args)`: only the first three arguments are
      looked at. */
  predicate HasKey(args: seq<Value>)
  {
    IsKeyProvided(Arg(args, 0), Arg(args, 1), Arg(args, 2))
  }

  /** The shortcut for an already canonical call: two arguments, the second
      an object with a truthy `defaultValue`. */
  predicate FastPath(args: seq<Value>)
  {
    |args| == 2 && IsTypeofObject(args[1]) && !args[1].Null? && Truthy(Get(args[1], "defaultValue"))
  }

  /** The value `isPluralizationHash` is asked about, and the slot whose
      truthiness decides whether it is asked at all, once an inferred key
      has been put in front of the arguments. */
  function ProbedSlots(args: seq<Value>): (Value, Value)
  {
    if HasKey(args) then (Arg(args, 1), Arg(args, 2)) else (Arg(args, 0), Arg(args, 1))
  }

  /** The calls this model covers: the source reads `null.defaultValue`
      (a TypeError) when the second of two arguments is `null`, and asks
      `Utils.keys(null)`, which is outside this model, when the value probed
      for a pluralization hash is `null`. */
  predicate NullSafe(args: seq<Value>)
  {
    && (|args| == 2 ==> !args[1].Null?)
    && (FastPath(args) || !(ProbedSlots(args).0.Null? && !Truthy(ProbedSlots(args).1)))
  }

  /** The argument list after an inferred key, if any, is put in front. */
  function WithKey(cfg: Config, col: Collaborators, args: seq<Value>): (a: seq<Value>)
    ensures |a| >= 1
    ensures HasKey(args) ==> a == args
    ensures !HasKey(args) ==> |a| == |args| + 1 && a[1..] == args && a[0] == InferKey(cfg, col, Arg(args, 0), Undef)
    ensures Arg(a, 1) == (if HasKey(args) then Arg(args, 1) else Arg(args, 0))
    ensures Arg(a, 2) == (if HasKey(args) then Arg(args, 2) else Arg(args, 1))
  {
    if HasKey(args) then args else [InferKey(cfg, col, Arg(args, 0), Undef)] + args
  }

  /** Whether the second slot holds a default that must move into the
      options: there are options, or the slot is a string or a pluralization
      hash. */
  predicate MovesDefault(a: seq<Value>)
    requires !(Arg(a, 1).Null? && !Truthy(Arg(a, 2)))
  {
    Truthy(Arg(a, 2)) || Arg(a, 1).Str? || IsPluralizationHash(Arg(a, 1))
  }

  /** Lines 112-117: make sure options exist in the third slot
      (`args[2] || {}`) and, when they are an object, move the default into
      `options.defaultValue`, closing the gap it leaves. */
  function MoveDefault(a: seq<Value>): (r: seq<Value>)
    requires |a| >= 1
    requires !(Arg(a, 1).Null? && !Truthy(Arg(a, 2)))
    ensures |r| >= 1 && r[0] == a[0]
    ensures !MovesDefault(a) ==> r == a
    ensures MovesDefault(a) ==> |a| >= 2 && |r| >= 2
    ensures MovesDefault(a) ==> var opts := if Truthy(Arg(a, 2)) then a[2] else EmptyObject;
      && (IsObject(opts) ==> HasProps(opts) && r == [a[0], SetField(opts, "defaultValue", a[1])] + (if |a| > 3 then a[3..] else []))
      && (!IsObject(opts) ==> r == a)
  {
    if MovesDefault(a) then
      var opts := if Truthy(Arg(a, 2)) then a[2] else EmptyObject;
      var withOpts := if |a| >= 3 then a[2 := opts] else a + [opts];
      if IsObject(opts) then
        [withOpts[0], SetField(opts, "defaultValue", withOpts[1])] + withOpts[3..]
      else
        withOpts
    else
      a
  }

  /** `inferArguments(args, meta)`. */
  function InferArguments(cfg: Config, col: Collaborators, args: seq<Value>): (r: Inference)
    requires NullSafe(args)
    ensures |r.args| >= 2
    ensures FastPath(args) ==> r == Inference(args, None)
    ensures !FastPath(args) ==> r.inferredKey == Some(!HasKey(args))
    ensures !FastPath(args) ==>
      r.args[0] == if HasKey(args) then Arg(args, 0) else InferKey(cfg, col, Arg(args, 0), Undef)
    ensures !FastPath(args) ==>
      var m := MoveDefault(WithKey(cfg, col, args));
      r.args == if |m| == 1 then m + [EmptyObject] else m
  {
    if FastPath(args) then
      Inference(args, None)
    else
      var hasKey := HasKey(args);
      var a := WithKey(cfg, col, args);
      var moved := MoveDefault(a);
      var padded := if |moved| == 1 then moved + [EmptyObject] else moved;
      Inference(padded, Some(!hasKey))
  }

  // The documented call shapes. In each, `o` is an object or array used as
  // the options and `k` a string key; where the shape depends on it, `k`
  // is required to match the key pattern.

  /** `key`: the key alone gets empty options. */
  lemma SignatureKey(cfg: Config, col: Collaborators, k: string)
    requires MatchesKeyPattern(k)
    ensures InferArguments(cfg, col, [Str(k)]) == Inference([Str(k), EmptyObject], Some(false))
  {
  }

  /** `key, options`: unchanged, as long as the options are not themselves
      shaped like a pluralization hash. */
  lemma SignatureKeyOptions(cfg: Config, col: Collaborators, k: string, o: Value)
    requires MatchesKeyPattern(k) && HasProps(o) && !IsPluralizationHash(o)
    ensures InferArguments(cfg, col, [Str(k), o]).args == [Str(k), o]
  {
  }

  /** `key, default_string`: the default moves into fresh options. */
  lemma SignatureKeyDefault(cfg: Config, col: Collaborators, k: string, d: string)
    ensures InferArguments(cfg, col, [Str(k), Str(d)])
      == Inference([Str(k), SetField(EmptyObject, "defaultValue", Str(d))], Some(false))
  {
  }

  /** `key, default_string, options` and `key, default_object, options`:
      whatever the middle argument is, it becomes `options.defaultValue`. */
  lemma SignatureKeyDefaultOptions(cfg: Config, col: Collaborators, k: string, d: Value, o: Value)
    requires HasProps(o)
    ensures InferArguments(cfg, col, [Str(k), d, o])
      == Inference([Str(k), SetField(o, "defaultValue", d)], Some(false))
  {
  }

  /** `default_string`: a string that is not a dotted key becomes the
      default of a key inferred from it. */
  lemma SignatureDefault(cfg: Config, col: Collaborators, d: string)
    requires !MatchesKeyPattern(d)
    ensures InferArguments(cfg, col, [Str(d)])
      == Inference([InferKey(cfg, col, Str(d), Undef), SetField(EmptyObject, "defaultValue", Str(d))], Some(true))
  {
  }

  /** `default_string, options`. The key is inferred without the options, so
      a `count` among them never triggers plural expansion here. */
  lemma SignatureDefaultOptions(cfg: Config, col: Collaborators, d: string, o: Value)
    requires !MatchesKeyPattern(d) && HasProps(o) && !Truthy(Get(o, "defaultValue"))
    ensures InferArguments(cfg, col, [Str(d), o])
      == Inference([InferKey(cfg, col, Str(d), Undef), SetField(o, "defaultValue", Str(d))], Some(true))
  {
  }

  /** `default_object, options`. */
  lemma SignatureObjectOptions(cfg: Config, col: Collaborators, h: Value, o: Value)
    requires HasProps(h) && HasProps(o) && !Truthy(Get(o, "defaultValue"))
    ensures InferArguments(cfg, col, [h, o])
      == Inference([InferKey(cfg, col, h, Undef), SetField(o, "defaultValue", h)], Some(true))
  {
  }

  /** A canonical pair, options holding a truthy default, is a fixed point:
      normalizing the result of a normalization changes nothing more. */
  lemma CanonicalIsFixedPoint(cfg: Config, col: Collaborators, args: seq<Value>)
    requires NullSafe(args)
    requires var r := InferArguments(cfg, col, args);
      |r.args| == 2 && HasProps(r.args[1]) && Truthy(Get(r.args[1], "defaultValue"))
    ensures var r := InferArguments(cfg, col, args);
      NullSafe(r.args) && InferArguments(cfg, col, r.args) == Inference(r.args, None)
  {
  }

  /** `["cat", {count: 3}]` with raw keys: "cat" is not a dotted key, so it
      is both the inferred key and the default, and is not expanded. */
  lemma CatExample(col: Collaborators, len: nat)
    ensures
      var opts := Obj(Props(["count"], map["count" := Num(3)]));
      InferArguments(Config("raw", len), col, [Str("cat"), opts])
      == Inference([Str("cat"), Obj(Props(["count", "defaultValue"], map["count" := Num(3), "defaultValue" := Str("cat")]))],
                   Some(true))
  {
    SplitWithoutDot("cat");
    var opts := Obj(Props(["count"], map["count" := Num(3)]));
    SignatureDefaultOptions(Config("raw", len), col, "cat", opts);
    InferKeyWithoutOptions(Config("raw", len), col, Str("cat"));
    assert SetInProps(opts.props, "defaultValue", Str("cat")).order == ["count"] + ["defaultValue"];
    assert SetField(opts, "defaultValue", Str("cat"))
      == Obj(Props(["count", "defaultValue"], map["count" := Num(3), "defaultValue" := Str("cat")]));
  }
}

=== FILE: classification.dfy ===
/**
 Shape predicates of the call helpers: which values count as objects, which
 objects are pluralization hashes, and which defaults are acceptable.
 */
module Classification {
  import opened JsValues

  /** `ALLOWED_PLURALIZATION_KEYS`. */
  const AllowedPluralizationKeys: seq<string> := ["zero", "one", "few", "many", "other"]

  /** `REQUIRED_PLURALIZATION_KEYS`. */
  const RequiredPluralizationKeys: seq<string> := ["one", "other"]

  /** `isObject`: any `typeof 'object'` value except the sentinel, so `null`
      and arrays are included. */
  predicate IsObject(v: Value)
  {
    IsTypeofObject(v) && !v.Unsupported?
  }

  /** `Utils.difference(a, b)`: the elements of `a`, in order, that are not
      in `b`. */
  function Difference(a: seq<string>, b: seq<string>): (r: seq<string>)
    ensures forall x :: x in r <==> x in a && x !in b
    ensures |r| <= |a|
  {
    if |a| == 0 then []
    else if a[0] in b then Difference(a[1..], b)
    else [a[0]] + Difference(a[1..], b)
  }

  /** `isPluralizationHash`. `Utils.keys(null)` is not part of this model, so
      `null` is excluded by the precondition. */
  predicate IsPluralizationHash(v: Value)
    requires !v.Null?
  {
    && IsObject(v)
    && var pKeys := Keys(v);
       |pKeys| > 0 && |Difference(pKeys, AllowedPluralizationKeys)| == 0
  }

  /** The names a value's properties are reported under, as a set. */
  function KeySet(v: Value): set<string>
    requires HasProps(v)
  {
    set k | k in Keys(v)
  }

  /** `isPluralizationHash` judges the key SET only: it holds exactly when
      the value is an object with at least one key and every key is allowed,
      whatever the order of the keys. */
  lemma PluralizationHashByKeySet(v: Value)
    requires !v.Null?
    ensures IsPluralizationHash(v) <==>
      IsObject(v) && KeySet(v) != {} && KeySet(v) <= set k | k in AllowedPluralizationKeys
  {
    if IsObject(v) {
      var pKeys := Keys(v);
      if |pKeys| > 0 {
        assert pKeys[0] in KeySet(v);
      }
      if KeySet(v) != {} {
        var k :| k in KeySet(v);
        assert k in pKeys;
      }
      if |Difference(pKeys, AllowedPluralizationKeys)| != 0 {
        var d := Difference(pKeys, AllowedPluralizationKeys);
        assert d[0] in d;
        assert d[0] in KeySet(v) && d[0] !in AllowedPluralizationKeys;
      }
    }
  }

  /** No array index is an allowed pluralization key: index names are
      decimal digits, and every allowed key starts with a letter. */
  lemma IndexKeyNotAllowed(i: nat)
    ensures NatToString(i) !in AllowedPluralizationKeys
  {
    var s := NatToString(i);
    assert '0' <= s[0] <= '9';
    forall k | k in AllowedPluralizationKeys ensures s != k {
      assert 'a' <= k[0] <= 'z';
    }
  }

  /** For a well-formed plain object: a pluralization hash is exactly a
      non-empty object all of whose keys are allowed. */
  lemma PluralizationHashOfObject(p: Props)
    requires PropsWellFormed(p)
    ensures IsPluralizationHash(Obj(p)) <==>
      p.fields != map[] && forall k :: k in p.fields ==> k in AllowedPluralizationKeys
  {
    var v := Obj(p);
    PluralizationHashByKeySet(v);
    assert KeySet(v) == p.fields.Keys;
  }

  /** An array with elements has an index among its keys, and so is never
      a pluralization hash. */
  lemma ArrayWithElementsIsNotHash(elems: seq<Value>, p: Props)
    requires |elems| > 0
    ensures !IsPluralizationHash(Arr(elems, p))
  {
    var v := Arr(elems, p);
    IndexKeyNotAllowed(0);
    assert Keys(v)[0] == NatToString(0);
    assert NatToString(0) in Difference(Keys(v), AllowedPluralizationKeys);
  }

  /** An array is a pluralization hash only when it has no elements and its
      named properties are a non-empty set of allowed keys. */
  lemma PluralizationHashOfArray(elems: seq<Value>, p: Props)
    requires PropsWellFormed(p)
    ensures IsPluralizationHash(Arr(elems, p)) <==>
      |elems| == 0 && p.fields != map[] && forall k :: k in p.fields ==> k in AllowedPluralizationKeys
  {
    if |elems| > 0 {
      ArrayWithElementsIsNotHash(elems, p);
    } else {
      assert Keys(Arr(elems, p)) == Keys(Obj(p));
      PluralizationHashOfObject(p);
    }
  }

  /** `validDefault(allowBlank)`: note that it judges `this.defaultValue`,
      a property of the helpers object, passed here as `thisDefault`; its
      argument only decides whether a blank default is acceptable. */
  predicate ValidDefault(allowBlank: Value, thisDefault: Value)
  {
    || (Truthy(allowBlank) && (thisDefault.Undef? || thisDefault.Null?))
    || thisDefault.Str?
    || IsObject(thisDefault)
  }

  /** With `this.defaultValue` unset, `validDefault(x)` is exactly the
      truthiness of `x`: every truthy argument passes, every falsy one fails. */
  lemma ValidDefaultWithUnsetField(x: Value)
    ensures ValidDefault(x, Undef) <==> Truthy(x)
  {
  }

  /** The intended reading: with blanks allowed, a default is valid when it
      is absent, a string, or an object other than the sentinel. */
  lemma ValidDefaultAllowingBlank(d: Value)
    ensures ValidDefault(Bool(true), d) <==> d.Undef? || d.Null? || d.Str? || d.Obj? || d.Arr?
    ensures ValidDefault(Bool(false), d) <==> d.Str? || d.Null? || d.Obj? || d.Arr?
  {
  }
}

=== FILE: js_values.dfy ===
/**
 The JavaScript values that flow through a translate call, with just enough
 of the language's semantics for the call helpers: `typeof`, truthiness,
 property reads and writes, `Utils.keys` enumeration order, and the string
 conversion performed by `"" + x`.
 */
module JsValues {

  datatype Option<+T> = None | Some(value: T)

  /** The own enumerable named properties of an object: `order` is the order
      in which `Utils.keys` enumerates them, `fields` their values. */
  datatype Props = Props(order: seq<string>, fields: map<string, Value>)

  /** Numbers are restricted to integers (no NaN, no fractions). An array
      carries its elements plus any named (non-index) properties assigned to
      it. `Unsupported` is the `UNSUPPORTED_EXPRESSION` sentinel: an empty
      array compared by identity, so it gets a variant of its own. */
  datatype Value =
    | Undef
    | Null
    | Bool(b: bool)
    | Num(n: int)
    | Str(s: string)
    | Obj(props: Props)
    | Arr(elems: seq<Value>, aprops: Props)
    | Unsupported

  const EmptyProps: Props := Props([], map[])

  /** The object literal `{}`. */
  const EmptyObject: Value := Obj(EmptyProps)

  /** JavaScript truthiness (`if (v)`, `v && ...`, `v || ...`). */
  predicate Truthy(v: Value)
  {
    match v
    case Undef => false
    case Null => false
    case Bool(b) => b
    case Num(n) => n != 0
    case Str(s) => |s| > 0
    case _ => true
  }

  /** `typeof v === 'object'`: null, plain objects and arrays. */
  predicate IsTypeofObject(v: Value)
  {
    v.Null? || v.Obj? || v.Arr? || v.Unsupported?
  }

  /** A value that can hold named properties. */
  predicate HasProps(v: Value)
  {
    v.Obj? || v.Arr?
  }

  function PropsOf(v: Value): Props
    requires HasProps(v)
  {
    if v.Obj? then v.props else v.aprops
  }

  /** Keys listed once each, and exactly the keys that have a value. */
  predicate PropsWellFormed(p: Props)
  {
    && (forall i, j :: 0 <= i < j < |p.order| ==> p.order[i] != p.order[j])
    && (forall k :: k in p.order ==> k in p.fields)
    && (forall k :: k in p.fields ==> k in p.order)
  }

  /** Reading a named, non-index property `v.name`. Reading a property of
      `undefined` or `null` throws in JavaScript, so callers must rule those
      out. Primitives and the sentinel have no named own properties that the
      call helpers read. */
  function Get(v: Value, name: string): (r: Value)
    requires !v.Undef? && !v.Null?
    ensures !HasProps(v) ==> r == Undef
    ensures HasProps(v) ==> (r != Undef <==> name in PropsOf(v).fields && PropsOf(v).fields[name] != Undef)
  {
    if HasProps(v) && name in PropsOf(v).fields then PropsOf(v).fields[name] else Undef
  }

  function SetInProps(p: Props, name: string, x: Value): (r: Props)
    ensures PropsWellFormed(p) ==> PropsWellFormed(r)
    ensures name in r.fields && r.fields[name] == x
    ensures forall k :: k != name ==> (k in r.fields <==> k in p.fields)
    ensures forall k :: k != name && k in p.fields ==> r.fields[k] == p.fields[k]
    ensures r.order == if name in p.fields then p.order else p.order + [name]
  {
    Props(if name in p.fields then p.order else p.order + [name], p.fields[name := x])
  }

  /** The assignment `v.name = x` on an object or array, as a new value: an
      existing key keeps its place in the enumeration order, a new key is
      enumerated last. */
  function SetField(v: Value, name: string, x: Value): (r: Value)
    requires HasProps(v)
    ensures HasProps(r) && r.Obj? == v.Obj?
    ensures r.Arr? ==> r.elems == v.elems
    ensures Get(r, name) == x
    ensures forall k :: k != name ==> Get(r, k) == Get(v, k)
    ensures PropsWellFormed(PropsOf(v)) ==> PropsWellFormed(PropsOf(r))
  {
    if v.Obj? then Obj(SetInProps(v.props, name, x))
    else Arr(v.elems, SetInProps(v.aprops, name, x))
  }

  function DigitChar(d: nat): (c: char)
    requires d < 10
    ensures '0' <= c <= '9'
  {
    "0123456789"[d]
  }

  /** Decimal rendering of a natural number, as `String(n)` prints it. */
  function NatToString(n: nat): (r: string)
    ensures |r| > 0
    ensures forall i :: 0 <= i < |r| ==> '0' <= r[i] <= '9'
  {
    if n < 10 then [DigitChar(n)] else NatToString(n / 10) + [DigitChar(n % 10)]
  }

  function IntToString(n: int): (r: string)
    ensures |r| > 0
  {
    if n < 0 then "-" + NatToString(-n) else NatToString(n)
  }

  /** The key list `Utils.keys` reports: array indices first, in ascending
      order, then the named properties in insertion order. */
  function Keys(v: Value): (r: seq<string>)
    requires HasProps(v)
    ensures v.Obj? ==> r == v.props.order
    ensures v.Arr? ==> |r| == |v.elems| + |v.aprops.order|
    ensures v.Arr? ==> r[|v.elems|..] == v.aprops.order
    ensures v.Arr? ==> forall i :: 0 <= i < |v.elems| ==> r[i] == NatToString(i)
  {
    if v.Obj? then v.props.order
    else seq(|v.elems|, i requires 0 <= i => NatToString(i)) + v.aprops.order
  }

  /** `"" + v`: the string conversion of a value. Objects print as
      `[object Object]`; arrays join their elements with commas, printing
      `undefined` and `null` elements as nothing. */
  function ToJsString(v: Value): string
    decreases v, 1
  {
    match v
    case Undef => "undefined"
    case Null => "null"
    case Bool(b) => if b then "true" else "false"
    case Num(n) => IntToString(n)
    case Str(s) => s
    case Obj(_) => "[object Object]"
    case Arr(elems, _) => JoinElements(v, 0)
    case Unsupported => ""
  }

  function JoinElements(v: Value, i: nat): string
    requires v.Arr? && i <= |v.elems|
    decreases v, 0, |v.elems| - i
  {
    if i == |v.elems| then ""
    else
      var e := v.elems[i];
      var text := if e.Undef? || e.Null? then "" else ToJsString(e);
      (if i == 0 then "" else ",") + text + JoinElements(v, i + 1)
  }
}

=== FILE: key_inference.dfy ===
/**
 Deriving a translation key from a default value: plural-shorthand
 expansion (`inferPluralizationHash`, `normalizeDefault`), the three key
 formats (`keyify` and its `underscored` and `underscored_crc32` variants)
 and `inferKey`, which ties them together.

 The slug generator, the pluralizer and the CRC-32 checksum are outside
 this model; they are passed in as the uninterpreted functions of a
 `Collaborators` record. The process-wide settings `inferredKeyFormat` and
 `underscoredKeyLength` are passed in as a `Config`.
 */
module KeyInference {
  import opened JsValues
  import opened Patterns
  import opened Classification

  datatype Config = Config(inferredKeyFormat: string, underscoredKeyLength: nat)

  /** `slug(x)` is `getSlug(x, {separator: '_', lang: false})`,
      `pluralize(w)` the plural form of a noun, `crc32Hex(t)` is
      `crc32(t).toString(16)`. */
  datatype Collaborators = Collaborators(
    slug: Value -> string,
    pluralize: string -> string,
    crc32Hex: string -> string)

  const UnderscoredFormat: string := "underscored"
  const UnderscoredCrc32Format: string := "underscored_crc32"

  /** When `inferPluralizationHash` expands its default: a bare word (only
      word characters and hyphens) used with a truthy `count` option. */
  predicate PluralExpands(d: Value, opts: Value)
  {
    d.Str? && IsBareWord(d.s) && Truthy(opts) && Truthy(Get(opts, "count"))
  }

  /** `inferPluralizationHash`: a bare word with a count becomes the hash
      `{one: "1 " + d, other: "%{count} " + pluralize(d)}`; anything else
      is returned unchanged. */
  function InferPluralizationHash(pluralize: string -> string, d: Value, opts: Value): (r: Value)
    ensures PluralExpands(d, opts) ==>
      && r.Obj? && PropsWellFormed(r.props)
      && r.props.order == RequiredPluralizationKeys
      && Get(r, "one") == Str("1 " + d.s)
      && Get(r, "other") == Str("%{count} " + pluralize(d.s))
    ensures !PluralExpands(d, opts) ==> r == d
  {
    if PluralExpands(d, opts) then
      Obj(Props(["one", "other"],
                map["one" := Str("1 " + d.s), "other" := Str("%{count} " + pluralize(d.s))]))
    else
      d
  }

  /** `normalizeDefault`: the default after plural-shorthand expansion. An
      expanded default is the `{one, other}` hash of `inferPluralizationHash`,
      and so a pluralization hash; otherwise nothing changes. */
  function NormalizeDefault(pluralize: string -> string, d: Value, opts: Value): (r: Value)
    ensures PluralExpands(d, opts) ==> r.Obj? && IsPluralizationHash(r)
    ensures PluralExpands(d, opts) ==> r == InferPluralizationHash(pluralize, d, opts)
    ensures !PluralExpands(d, opts) ==> r == d
  {
    var r := InferPluralizationHash(pluralize, d, opts);
    if PluralExpands(d, opts) then
      PluralizationHashOfObject(r.props);
      r
    else
      r
  }

  /** The expansion carries exactly the keys a consumer requires, `one` and
      `other`, and nothing else. */
  lemma ExpansionHasRequiredKeys(pluralize: string -> string, d: Value, opts: Value)
    requires PluralExpands(d, opts)
    ensures var r := NormalizeDefault(pluralize, d, opts);
      r.Obj? && r.props.fields.Keys == set k | k in RequiredPluralizationKeys
  {
    var r := InferPluralizationHash(pluralize, d, opts);
    assert "one" in r.props.order && "other" in r.props.order;
  }

  /** Without a truthy options value nothing is ever expanded. */
  lemma NoExpansionWithoutOptions(pluralize: string -> string, d: Value, opts: Value)
    requires !Truthy(opts)
    ensures NormalizeDefault(pluralize, d, opts) == d
  {
  }

  /** `inferPluralizationHash("cat", {count: 3})` and
      `inferPluralizationHash("cat", {})`. */
  lemma PluralExpansionExample(pluralize: string -> string)
    requires pluralize("cat") == "cats"
    ensures InferPluralizationHash(pluralize, Str("cat"), Obj(Props(["count"], map["count" := Num(3)])))
      == Obj(Props(["one", "other"], map["one" := Str("1 cat"), "other" := Str("%{count} cats")]))
    ensures InferPluralizationHash(pluralize, Str("cat"), EmptyObject) == Str("cat")
  {
    assert IsBareWord("cat");
    assert "1 " + "cat" == "1 cat";
    assert "%{count} " + "cats" == "%{count} cats";
  }

  predicate IsSeparator(c: char)
  {
    c == '-' || c == '_'
  }

  /** No hyphen, and no two underscores in a row, checked one position at
      a time; `CleanKeyMeans` restates it with quantifiers. */
  predicate IsCleanKey(s: string)
  {
    |s| == 0 || (s[0] != '-' && (|s| >= 2 ==> !(s[0] == '_' && s[1] == '_')) && IsCleanKey(s[1..]))
  }

  lemma {:induction false} CleanKeyMeans(s: string)
    ensures IsCleanKey(s) <==>
      && (forall i :: 0 <= i < |s| ==> s[i] != '-')
      && (forall i :: 0 <= i < |s| - 1 ==> !(s[i] == '_' && s[i + 1] == '_'))
    decreases |s|
  {
    if |s| > 0 {
      CleanKeyMeans(s[1..]);
      assert forall i :: 0 <= i < |s| - 1 ==> s[1..][i] == s[i + 1];
    }
  }

  /** Every prefix of a clean key is clean. */
  lemma {:induction false} CleanPrefix(s: string, n: nat)
    requires IsCleanKey(s) && n <= |s|
    ensures IsCleanKey(s[..n])
    decreases n
  {
    if n > 0 {
      CleanPrefix(s[1..], n - 1);
      assert s[..n][1..] == s[1..][..n - 1];
    }
  }

  /** `s` without its leading run of `-` and `_`. */
  function DropSeparators(s: string): (r: string)
    ensures |r| <= |s| && r == s[|s| - |r|..]
    ensures |r| > 0 ==> !IsSeparator(r[0])
    ensures |s| > 0 && IsSeparator(s[0]) ==> |r| < |s|
    ensures forall i :: 0 <= i < |s| - |r| ==> IsSeparator(s[i])
    decreases |s|
  {
    if |s| > 0 && IsSeparator(s[0]) then
      var r := DropSeparators(s[1..]);
      assert s[1..][|s| - 1 - |r|..] == s[|s| - |r|..];
      assert forall i :: 1 <= i < |s| - |r| ==> s[i] == s[1..][i - 1];
      r
    else s
  }

  /** `s.replace(/[-_]+/g, '_')`: every maximal run of hyphens and
      underscores becomes one underscore. */
  function CollapseSeparators(s: string): (r: string)
    ensures IsCleanKey(r)
    ensures |r| <= |s|
    ensures |s| > 0 ==> |r| > 0 && r[0] == (if IsSeparator(s[0]) then '_' else s[0])
    decreases |s|
  {
    if |s| == 0 then ""
    else if IsSeparator(s[0]) then "_" + CollapseSeparators(DropSeparators(s))
    else [s[0]] + CollapseSeparators(s[1..])
  }

  /** The characters of `s` other than hyphens and underscores. */
  function Letters(s: string): string
  {
    if |s| == 0 then ""
    else if IsSeparator(s[0]) then Letters(s[1..])
    else [s[0]] + Letters(s[1..])
  }

  lemma {:induction false} LettersOfDropped(s: string)
    ensures Letters(DropSeparators(s)) == Letters(s)
    decreases |s|
  {
    if |s| > 0 && IsSeparator(s[0]) {
      LettersOfDropped(s[1..]);
    }
  }

  /** Collapsing only touches separators: the other characters survive, in
      order. */
  lemma {:induction false} CollapseKeepsLetters(s: string)
    ensures Letters(CollapseSeparators(s)) == Letters(s)
    decreases |s|
  {
    if |s| == 0 {
    } else if IsSeparator(s[0]) {
      var d := DropSeparators(s);
      CollapseKeepsLetters(d);
      LettersOfDropped(s);
      var c := CollapseSeparators(d);
      assert ("_" + c)[1..] == c;
    } else {
      CollapseKeepsLetters(s[1..]);
      var c := CollapseSeparators(s[1..]);
      assert ([s[0]] + c)[1..] == c;
    }
  }

  /** A string that is already clean is left alone. */
  lemma {:induction false} CollapseFixesCleanKeys(s: string)
    requires IsCleanKey(s)
    ensures CollapseSeparators(s) == s
    decreases |s|
  {
    if |s| > 0 {
      if IsSeparator(s[0]) {
        assert s[0] == '_';
        assert |s| > 1 ==> !IsSeparator(s[1]);
        assert DropSeparators(s) == s[1..] by {
          assert DropSeparators(s) == DropSeparators(s[1..]);
        }
      }
      CollapseFixesCleanKeys(s[1..]);
      assert s == [s[0]] + s[1..];
    }
  }

  /** A string ending in a character other than `-` and `_` keeps that
      character when its leading run is dropped. */
  lemma DropKeepsLast(x: string)
    requires |x| > 0 && !IsSeparator(x[|x| - 1])
    ensures |DropSeparators(x)| > 0
    ensures DropSeparators(x)[|DropSeparators(x)| - 1] == x[|x| - 1]
  {
    var d := DropSeparators(x);
    assert |d| > 0;
    assert d == x[|x| - |d|..];
  }

  /** Dropping a leading run that ends inside `x` leaves `y` untouched. */
  lemma {:induction false} DropConcat(x: string, y: string)
    requires |x| > 0 && !IsSeparator(x[|x| - 1])
    ensures DropSeparators(x + y) == DropSeparators(x) + y
    decreases |x|
  {
    if IsSeparator(x[0]) {
      assert |x| > 1;
      assert (x + y)[1..] == x[1..] + y;
      DropConcat(x[1..], y);
    } else {
      assert (x + y)[0] == x[0];
    }
  }

  /** One unfolding of `CollapseSeparators` at a leading separator. */
  lemma CollapseLeadingRun(s: string)
    requires |s| > 0 && IsSeparator(s[0])
    ensures CollapseSeparators(s) == "_" + CollapseSeparators(DropSeparators(s))
  {
  }

  /** One unfolding of `CollapseSeparators` at a leading character other
      than `-` and `_`. */
  lemma CollapsePlainFirst(s: string)
    requires |s| > 0 && !IsSeparator(s[0])
    ensures CollapseSeparators(s) == [s[0]] + CollapseSeparators(s[1..])
  {
  }

  /** Gluing two collapsed pieces that share a first part `h`. */
  lemma JoinPieces(whole: string, left: string, right: string, h: string, a: string)
    requires whole == h + (a + right) && left == h + a
    ensures whole == left + right
  {
  }

  lemma LeadingRunOfConcat(x: string, y: string)
    requires |x| > 0 && IsSeparator(x[0]) && !IsSeparator(x[|x| - 1])
    ensures CollapseSeparators(x + y) == "_" + CollapseSeparators(DropSeparators(x) + y)
  {
    assert (x + y)[0] == x[0];
    DropConcat(x, y);
    CollapseLeadingRun(x + y);
  }

  lemma PlainFirstOfConcat(x: string, y: string)
    requires |x| > 0 && !IsSeparator(x[0])
    ensures CollapseSeparators(x + y) == [x[0]] + CollapseSeparators(x[1..] + y)
  {
    assert (x + y)[0] == x[0] && (x + y)[1..] == x[1..] + y;
    CollapsePlainFirst(x + y);
  }

  lemma CollapseEmptyThen(x: string, y: string)
    requires |x| == 1
    ensures CollapseSeparators(x[1..] + y) == CollapseSeparators(x[1..]) + CollapseSeparators(y)
  {
    assert x[1..] == "" && x[1..] + y == y;
  }

  /** Collapsing works run by run: a string cut just after a character
      other than `-` and `_` collapses piece by piece. Together with the
      leading-run clause of `CollapseSeparators`, this fixes the result: each
      inner run of separators, too, becomes exactly one underscore. */
  lemma {:induction false} CollapseConcat(x: string, y: string)
    requires |x| > 0 && !IsSeparator(x[|x| - 1])
    ensures CollapseSeparators(x + y) == CollapseSeparators(x) + CollapseSeparators(y)
    decreases |x|
  {
    var b := CollapseSeparators(y);
    if IsSeparator(x[0]) {
      var d := DropSeparators(x);
      DropKeepsLast(x);
      CollapseConcat(d, y);
      LeadingRunOfConcat(x, y);
      CollapseLeadingRun(x);
      JoinPieces(CollapseSeparators(x + y), CollapseSeparators(x), b, "_", CollapseSeparators(d));
    } else {
      if |x| > 1 {
        CollapseConcat(x[1..], y);
      } else {
        CollapseEmptyThen(x, y);
      }
      PlainFirstOfConcat(x, y);
      CollapsePlainFirst(x);
      JoinPieces(CollapseSeparators(x + y), CollapseSeparators(x), b, [x[0]], CollapseSeparators(x[1..]));
    }
  }

  /** A leading run of separators is exactly what `DropSeparators` removes. */
  lemma {:induction false} DropWholeRun(run: string, t: string)
    requires forall i :: 0 <= i < |run| ==> IsSeparator(run[i])
    requires |t| > 0 ==> !IsSeparator(t[0])
    ensures DropSeparators(run + t) == t
    decreases |run|
  {
    if |run| > 0 {
      assert (run + t)[0] == run[0] && (run + t)[1..] == run[1..] + t;
      assert forall i :: 0 <= i < |run[1..]| ==> run[1..][i] == run[i + 1];
      DropWholeRun(run[1..], t);
    } else {
      assert run + t == t;
    }
  }

  /** A non-empty run of `-` and `_` in front becomes one underscore. */
  lemma RunCollapses(run: string, t: string)
    requires |run| > 0 && forall i :: 0 <= i < |run| ==> IsSeparator(run[i])
    requires |t| > 0 ==> !IsSeparator(t[0])
    ensures CollapseSeparators(run + t) == "_" + CollapseSeparators(t)
  {
    assert (run + t)[0] == run[0];
    DropWholeRun(run, t);
    CollapseLeadingRun(run + t);
  }

  /** A run of `-` and `_` between other characters becomes exactly one
      underscore: `"a-b"` and `"a__b"` both collapse to `"a_b"`. */
  lemma InnerRunCollapses(x: string, run: string, t: string)
    requires |x| > 0 && !IsSeparator(x[|x| - 1])
    requires |run| > 0 && forall i :: 0 <= i < |run| ==> IsSeparator(run[i])
    requires |t| > 0 ==> !IsSeparator(t[0])
    ensures CollapseSeparators(x + run + t) == CollapseSeparators(x) + "_" + CollapseSeparators(t)
  {
    assert x + run + t == x + (run + t);
    CollapseConcat(x, run + t);
    RunCollapses(run, t);
  }

  /** Collapsing twice is collapsing once. */
  lemma CollapseIdempotent(s: string)
    ensures CollapseSeparators(CollapseSeparators(s)) == CollapseSeparators(s)
  {
    CollapseFixesCleanKeys(CollapseSeparators(s));
  }

  /** `s.substring(0, n)` for a non-negative `n`. */
  function Truncate(s: string, n: nat): (r: string)
    ensures |r| == if |s| <= n then |s| else n
    ensures r == s[..|r|]
    ensures |s| <= n ==> r == s
  {
    if |s| <= n then s else s[..n]
  }

  /** `keyifyUnderscored`. */
  function KeyifyUnderscored(cfg: Config, col: Collaborators, v: Value): (r: string)
    ensures |r| <= cfg.underscoredKeyLength
    ensures IsCleanKey(r)
    ensures var full := CollapseSeparators(col.slug(v));
      && |r| == (if |full| <= cfg.underscoredKeyLength then |full| else cfg.underscoredKeyLength)
      && r == full[..|r|]
  {
    var full := CollapseSeparators(col.slug(v));
    var r := Truncate(full, cfg.underscoredKeyLength);
    CleanPrefix(full, |r|);
    r
  }

  /** `string.length` as `+` converts it to text: the length of a string or
      array, or `undefined` for values without a `length` property. Reading
      `length` of `undefined` or `null` throws, so those are excluded. */
  function LengthText(v: Value): string
    requires !v.Undef? && !v.Null?
  {
    match v
    case Str(s) => NatToString(|s|)
    case Arr(elems, _) => NatToString(|elems|)
    case Unsupported => "0"
    case Obj(p) => if "length" in p.fields then ToJsString(p.fields["length"]) else "undefined"
    case _ => "undefined"
  }

  /** The text whose checksum ends an `underscored_crc32` key:
      `string.length + ":" + string`. */
  function ChecksumInput(v: Value): string
    requires !v.Undef? && !v.Null?
  {
    LengthText(v) + ":" + ToJsString(v)
  }

  /** `keyifyUnderscoredCrc32`: the underscored key, an underscore, and the
      hexadecimal checksum of the length-prefixed input. */
  function KeyifyUnderscoredCrc32(cfg: Config, col: Collaborators, v: Value): (r: string)
    requires !v.Undef? && !v.Null?
    ensures var u := KeyifyUnderscored(cfg, col, v);
      && |r| > |u|
      && r[..|u|] == u
      && r[|u|] == '_'
      && r[|u| + 1..] == col.crc32Hex(ChecksumInput(v))
  {
    var u := KeyifyUnderscored(cfg, col, v);
    var r := u + "_" + col.crc32Hex(ChecksumInput(v));
    assert r[..|u|] == u;
    assert r[|u| + 1..] == col.crc32Hex(ChecksumInput(v));
    r
  }

  /** For a string, the checksum covers its decimal length, a colon and the
      string itself. */
  lemma ChecksumOfString(s: string)
    ensures ChecksumInput(Str(s)) == NatToString(|s|) + ":" + s
  {
  }

  /** `keyify`: dispatch on the configured format; any format other than
      the two underscored ones returns the input unchanged. */
  function Keyify(cfg: Config, col: Collaborators, v: Value): (r: Value)
    requires cfg.inferredKeyFormat == UnderscoredCrc32Format ==> !v.Undef? && !v.Null?
    ensures cfg.inferredKeyFormat != UnderscoredFormat && cfg.inferredKeyFormat != UnderscoredCrc32Format
      ==> r == v
    ensures cfg.inferredKeyFormat == UnderscoredFormat ==>
      r == Str(KeyifyUnderscored(cfg, col, v)) && |r.s| <= cfg.underscoredKeyLength && IsCleanKey(r.s)
    ensures cfg.inferredKeyFormat == UnderscoredCrc32Format ==>
      var u := KeyifyUnderscored(cfg, col, v);
      && r.Str? && |r.s| > |u| && r.s[..|u|] == u && r.s[|u|] == '_'
      && r.s[|u| + 1..] == col.crc32Hex(ChecksumInput(v))
      && IsCleanKey(u) && |u| <= cfg.underscoredKeyLength
    ensures !v.Undef? ==> !r.Undef?
  {
    if cfg.inferredKeyFormat == UnderscoredFormat then Str(KeyifyUnderscored(cfg, col, v))
    else if cfg.inferredKeyFormat == UnderscoredCrc32Format then Str(KeyifyUnderscoredCrc32(cfg, col, v))
    else v
  }

  /** The text an object default contributes to its key: `"" + d.other`. */
  function ObjectDefaultText(d: Value): (r: Value)
    requires IsTypeofObject(d) && !d.Null?
    ensures r.Str?
    ensures HasProps(d) && "other" in PropsOf(d).fields ==> r.s == ToJsString(PropsOf(d).fields["other"])
    ensures !(HasProps(d) && "other" in PropsOf(d).fields) ==> r.s == "undefined"
  {
    Str(ToJsString(Get(d, "other")))
  }

  /** `inferKey`. Its validity test is `validDefault(defaultValue)`, which
      passes the default in the `allowBlank` position and judges the unset
      `this.defaultValue`: so exactly the truthy defaults get a key and every
      falsy one (including `""` and `0`) yields `undefined`. An object
      default is replaced by `"" + d.other` before expansion. */
  function InferKey(cfg: Config, col: Collaborators, d: Value, opts: Value): (r: Value)
    ensures r.Undef? <==> !Truthy(d)
    ensures Truthy(d) && IsTypeofObject(d) ==>
      r == Keyify(cfg, col, NormalizeDefault(col.pluralize, ObjectDefaultText(d), opts))
    ensures Truthy(d) && !IsTypeofObject(d) ==>
      r == Keyify(cfg, col, NormalizeDefault(col.pluralize, d, opts))
  {
    if ValidDefault(d, Undef) then
      var text := if IsTypeofObject(d) then ObjectDefaultText(d) else d;
      Keyify(cfg, col, NormalizeDefault(col.pluralize, text, opts))
    else
      Undef
  }

  /** Called without options, `inferKey` never expands: the key comes from
      the default (or its `other` text) as it is. With the raw format, a
      truthy string default is its own key. */
  lemma InferKeyWithoutOptions(cfg: Config, col: Collaborators, d: Value)
    requires Truthy(d)
    ensures !IsTypeofObject(d) ==> InferKey(cfg, col, d, Undef) == Keyify(cfg, col, d)
    ensures IsTypeofObject(d) ==> InferKey(cfg, col, d, Undef) == Keyify(cfg, col, ObjectDefaultText(d))
    ensures cfg.inferredKeyFormat == "raw" && d.Str? ==> InferKey(cfg, col, d, Undef) == d
  {
  }
}

=== FILE: patterns.dfy ===
/**
 The two regular expressions the call helpers test strings against:
 `keyPattern` (`^(\w+\.)+\w+$`, a dotted key path) and the bare-word test
 `^[\w-]+$` used before plural expansion. `\w` is ASCII `[A-Za-z0-9_]`, as in
 a JavaScript regular expression without the `u` flag.
 */
module Patterns {

  predicate IsWordChar(c: char)
  {
    'a' <= c <= 'z' || 'A' <= c <= 'Z' || '0' <= c <= '9' || c == '_'
  }

  /** `\w+` */
  predicate IsWord(s: string)
  {
    |s| > 0 && forall i :: 0 <= i < |s| ==> IsWordChar(s[i])
  }

  /** `^[\w-]+$` */
  predicate IsBareWord(s: string)
  {
    |s| > 0 && forall i :: 0 <= i < |s| ==> IsWordChar(s[i]) || s[i] == '-'
  }

  /** The pieces of `s` between dots (`s.split(".")`). */
  function SplitDots(s: string): (segs: seq<string>)
    ensures |segs| >= 1
    ensures forall i :: 0 <= i < |segs| ==> '.' !in segs[i]
  {
    if |s| == 0 then [""]
    else if s[0] == '.' then [""] + SplitDots(s[1..])
    else
      var rest := SplitDots(s[1..]);
      [[s[0]] + rest[0]] + rest[1..]
  }

  /** `segs.join(".")` */
  function JoinDots(segs: seq<string>): string
    requires |segs| >= 1
  {
    if |segs| == 1 then segs[0] else segs[0] + "." + JoinDots(segs[1..])
  }

  /** The regular expression read literally: one or more `\w+` segments,
      each followed by a dot, and a final `\w+` segment. */
  ghost predicate KeyPatternSpec(s: string)
  {
    exists segs: seq<string> ::
      |segs| >= 2 && (forall i :: 0 <= i < |segs| ==> IsWord(segs[i])) && JoinDots(segs) == s
  }

  /** `keyPattern.test(s)`, decided by splitting on dots. */
  predicate MatchesKeyPattern(s: string)
  {
    var segs := SplitDots(s);
    |segs| >= 2 && forall i :: 0 <= i < |segs| ==> IsWord(segs[i])
  }

  lemma {:induction false} JoinSplit(s: string)
    ensures JoinDots(SplitDots(s)) == s
    decreases |s|
  {
    if |s| == 0 {
    } else if s[0] == '.' {
      JoinSplit(s[1..]);
      assert SplitDots(s) == [""] + SplitDots(s[1..]);
      assert ([""] + SplitDots(s[1..]))[1..] == SplitDots(s[1..]);
      assert s == "" + "." + s[1..];
    } else {
      var rest := SplitDots(s[1..]);
      JoinSplit(s[1..]);
      var segs := [[s[0]] + rest[0]] + rest[1..];
      assert SplitDots(s) == segs;
      if |rest| == 1 {
        assert s == [s[0]] + s[1..];
      } else {
        assert segs[1..] == rest[1..];
        assert JoinDots(rest) == rest[0] + "." + JoinDots(rest[1..]);
        calc {
          JoinDots(segs);
          ([s[0]] + rest[0]) + "." + JoinDots(rest[1..]);
          [s[0]] + (rest[0] + "." + JoinDots(rest[1..]));
          [s[0]] + s[1..];
          s;
        }
      }
    }
  }

  lemma {:induction false} SplitWithoutDot(a: string)
    requires '.' !in a
    ensures SplitDots(a) == [a]
    decreases |a|
  {
    if |a| > 0 {
      assert '.' !in a[1..] by {
        forall i | 0 <= i < |a[1..]| ensures a[1..][i] != '.' {
          assert a[1..][i] == a[i + 1];
        }
      }
      SplitWithoutDot(a[1..]);
      assert [a[0]] + a[1..] == a;
    }
  }

  lemma {:induction false} SplitAfterSegment(a: string, t: string)
    requires '.' !in a
    ensures SplitDots(a + "." + t) == [a] + SplitDots(t)
    decreases |a|
  {
    var s := a + "." + t;
    if |a| == 0 {
      assert s[0] == '.' && s[1..] == t;
    } else {
      assert '.' !in a[1..] by {
        forall i | 0 <= i < |a[1..]| ensures a[1..][i] != '.' {
          assert a[1..][i] == a[i + 1];
        }
      }
      SplitAfterSegment(a[1..], t);
      assert s[0] == a[0];
      assert s[1..] == a[1..] + "." + t;
      assert [a[0]] + a[1..] == a;
    }
  }

  lemma {:induction false} SplitJoin(segs: seq<string>)
    requires |segs| >= 1
    requires forall i :: 0 <= i < |segs| ==> '.' !in segs[i]
    ensures SplitDots(JoinDots(segs)) == segs
    decreases |segs|
  {
    if |segs| == 1 {
      SplitWithoutDot(segs[0]);
    } else {
      SplitJoin(segs[1..]);
      SplitAfterSegment(segs[0], JoinDots(segs[1..]));
      assert [segs[0]] + segs[1..] == segs;
    }
  }

  /** The split-based matcher accepts exactly the strings the regular
      expression describes. */
  lemma KeyPatternCorrect(s: string)
    ensures MatchesKeyPattern(s) <==> KeyPatternSpec(s)
  {
    if MatchesKeyPattern(s) {
      JoinSplit(s);
      var segs := SplitDots(s);
      assert |segs| >= 2 && (forall i :: 0 <= i < |segs| ==> IsWord(segs[i])) && JoinDots(segs) == s;
    }
    if KeyPatternSpec(s) {
      var segs: seq<string> :|
        |segs| >= 2 && (forall i :: 0 <= i < |segs| ==> IsWord(segs[i])) && JoinDots(segs) == s;
      assert forall i :: 0 <= i < |segs| ==> '.' !in segs[i];
      SplitJoin(segs);
    }
  }
}

=== FILE: wrapper_application.dfy ===
/**
 `applyWrappers` and `applyWrapper`: injecting markup into a translated
 string at spans marked by delimiters.

 `applyWrapper(s, d, w)` is `s.replace(new RegExp(esc(d) + "(.*?)" + esc(d)), w)`
 with the delimiter escaped: one replacement (no `g` flag) of the leftmost
 occurrence of the delimiter, followed by the shortest span without a line
 terminator (`.` does not match one), followed by the delimiter again. The
 escaping is modelled by matching the delimiter literally.
 */
module WrapperApplication {
  import opened JsValues

  /** A replacement: either a template string, in which `$1` stands for the
      text between the delimiters, or a callback given the whole match and
      that text. */
  datatype Wrapper = Template(text: string) | Callback(f: (string, string) -> string)

  /** The `wrappers` argument: a single template string, an array, or an
      object mapping delimiters to wrappers (`order` is its `Utils.keys`
      order). */
  datatype WrapperSpec =
    | Single(text: string)
    | List(items: seq<Wrapper>)
    | Named(order: seq<string>, byDelimiter: map<string, Wrapper>)

  /** The characters `.` does not match in a JavaScript regular expression. */
  predicate IsLineTerminator(c: char)
  {
    c == '\n' || c == '\r' || c == '\U{2028}' || c == '\U{2029}'
  }

  /** `d` occurs at `i` and again at `j`, with no line terminator between. */
  predicate MatchAt(s: string, d: string, i: int, j: int)
  {
    && 0 <= i && i + |d| <= j && j + |d| <= |s|
    && s[i..i + |d|] == d
    && s[j..j + |d|] == d
    && forall k :: i + |d| <= k < j ==> !IsLineTerminator(s[k])
  }

  /** What the regular expression finds: the leftmost start, and from it
      the nearest closing delimiter. */
  ghost predicate IsFirstMatch(s: string, d: string, i: int, j: int)
  {
    && MatchAt(s, d, i, j)
    && (forall i', j' :: i' < i ==> !MatchAt(s, d, i', j'))
    && (forall j' :: j' < j ==> !MatchAt(s, d, i, j'))
  }

  /** The nearest closing delimiter for an opening one at `i`, searching
      from `j` on. */
  function FindClose(s: string, d: string, i: nat, j: nat): (r: Option<nat>)
    requires i + |d| <= j <= |s|
    requires forall k :: i + |d| <= k < j ==> !IsLineTerminator(s[k])
    requires s[i..i + |d|] == d
    ensures r.Some? ==> MatchAt(s, d, i, r.value) && forall j' :: j <= j' < r.value ==> !MatchAt(s, d, i, j')
    ensures r.None? ==> forall j' :: j <= j' ==> !MatchAt(s, d, i, j')
    decreases |s| - j
  {
    if j + |d| > |s| then None
    else if s[j..j + |d|] == d then Some(j)
    else if IsLineTerminator(s[j]) then None
    else FindClose(s, d, i, j + 1)
  }

  /** The leftmost match starting at or after `i`. */
  function FindOpen(s: string, d: string, i: nat): (r: Option<(nat, nat)>)
    ensures r.Some? ==>
      && r.value.0 >= i
      && MatchAt(s, d, r.value.0, r.value.1)
      && (forall i', j' :: i <= i' < r.value.0 ==> !MatchAt(s, d, i', j'))
      && (forall j' :: j' < r.value.1 ==> !MatchAt(s, d, r.value.0, j'))
    ensures r.None? ==> forall i', j' :: i <= i' ==> !MatchAt(s, d, i', j')
    decreases |s| - i
  {
    if i + |d| > |s| then None
    else if s[i..i + |d|] == d then
      match FindClose(s, d, i, i + |d|)
      case Some(j) => Some((i, j))
      case None =>
        var r := FindOpen(s, d, i + 1);
        NoMatchFrom(s, d, i);
        r
    else
      var r := FindOpen(s, d, i + 1);
      NoMatchFrom(s, d, i);
      r
  }

  /** A start without a match adds nothing to the search from the next one. */
  lemma NoMatchFrom(s: string, d: string, i: nat)
    requires i + |d| <= |s|
    requires s[i..i + |d|] == d ==> forall j' :: i + |d| <= j' ==> !MatchAt(s, d, i, j')
    ensures forall j' :: !MatchAt(s, d, i, j')
  {
  }

  lemma StepPieces(whole: string, tail: string, p: string, inner: string, e: string)
    requires |p| > 0 && whole == [p[0]] + tail && tail == p[1..] + inner + e
    ensures whole == p + inner + e
  {
    assert p == [p[0]] + p[1..];
  }

  lemma NoDollarTail(p: string)
    requires |p| > 0 && forall k :: 0 <= k < |p| ==> p[k] != '$'
    ensures forall k :: 0 <= k < |p[1..]| ==> p[1..][k] != '$'
  {
    assert forall k :: 0 <= k < |p[1..]| ==> p[1..][k] == p[k + 1];
  }

  /** `t` with every `$1` replaced by `inner`. */
  function ExpandTemplate(t: string, inner: string): (r: string)
    ensures (forall k :: 0 <= k < |t| ==> t[k] != '$') ==> r == t
  {
    if |t| < 2 then t
    else if t[0] == '$' && t[1] == '1' then inner + ExpandTemplate(t[2..], inner)
    else [t[0]] + ExpandTemplate(t[1..], inner)
  }

  /** A template with no `$1` in it is inserted as it is: any other `$`
      (`$2`, `$x`, a trailing `$`) is kept literally, as with a pattern of
      one group. */
  lemma {:induction false} ExpandWithoutGroup(t: string, inner: string)
    requires forall k :: 0 <= k < |t| - 1 ==> !(t[k] == '$' && t[k + 1] == '1')
    ensures ExpandTemplate(t, inner) == t
    decreases |t|
  {
    if |t| >= 2 {
      assert !(t[0] == '$' && t[1] == '1');
      assert forall k :: 0 <= k < |t| - 1 ==> t[1..][k] == t[k + 1];
      ExpandWithoutGroup(t[1..], inner);
      assert t == [t[0]] + t[1..];
    }
  }

  lemma GroupAtStart(q: string, inner: string)
    ensures ExpandTemplate("$1" + q, inner) == inner + ExpandTemplate(q, inner)
  {
    var t := "$1" + q;
    assert t[0] == '$' && t[1] == '1' && t[2..] == q;
  }

  lemma PlainCharacterFirst(c: char, u: string, inner: string)
    requires c != '$' && |u| >= 1
    ensures ExpandTemplate([c] + u, inner) == [c] + ExpandTemplate(u, inner)
  {
    var t := [c] + u;
    assert t[0] == c && t[1..] == u;
  }

  /** `$1` in a template stands for the captured inner text: the text
      before the first `$1` is kept, the inner text takes its place, and
      expansion goes on after it. */
  lemma PlainFirstOfGroup(p: string, q: string, inner: string)
    requires |p| > 0 && p[0] != '$'
    ensures ExpandTemplate(p + "$1" + q, inner) == [p[0]] + ExpandTemplate(p[1..] + "$1" + q, inner)
  {
    var rest := p[1..] + "$1" + q;
    assert p + "$1" + q == [p[0]] + rest;
    PlainCharacterFirst(p[0], rest, inner);
  }

  lemma {:induction false} ExpandFirstGroup(p: string, q: string, inner: string)
    requires forall k :: 0 <= k < |p| ==> p[k] != '$'
    ensures ExpandTemplate(p + "$1" + q, inner) == p + inner + ExpandTemplate(q, inner)
    decreases |p|
  {
    if |p| == 0 {
      assert p + "$1" + q == "$1" + q;
      GroupAtStart(q, inner);
    } else {
      PlainFirstOfGroup(p, q, inner);
      NoDollarTail(p);
      ExpandFirstGroup(p[1..], q, inner);
      StepPieces(ExpandTemplate(p + "$1" + q, inner), ExpandTemplate(p[1..] + "$1" + q, inner),
        p, inner, ExpandTemplate(q, inner));
    }
  }

  /** The replacement text for a match `m` whose inner span is `inner`. */
  function Replacement(w: Wrapper, m: string, inner: string): string
  {
    match w
    case Template(t) => ExpandTemplate(t, inner)
    case Callback(f) => f(m, inner)
  }

  /** `s` with the match `i`, `j` replaced and everything around it kept. */
  function Replaced(s: string, d: string, w: Wrapper, i: int, j: int): string
    requires MatchAt(s, d, i, j)
  {
    s[..i] + Replacement(w, s[i..j + |d|], s[i + |d|..j]) + s[j + |d|..]
  }

  /** `applyWrapper`: the first match is replaced, the text before and
      after it is kept, and a string without a match is returned as is. */
  function ApplyWrapper(s: string, d: string, w: Wrapper): (r: string)
    ensures (forall i, j :: !MatchAt(s, d, i, j)) ==> r == s
    ensures forall i, j :: IsFirstMatch(s, d, i, j) ==> r == Replaced(s, d, w, i, j)
  {
    var m := FindOpen(s, d, 0);
    FirstMatchFound(s, d);
    if m.None? then s else Replaced(s, d, w, m.value.0, m.value.1)
  }

  /** The search finds the first match, the only one there is. */
  lemma FirstMatchFound(s: string, d: string)
    ensures FindOpen(s, d, 0).None? ==> forall i, j :: !MatchAt(s, d, i, j)
    ensures FindOpen(s, d, 0).Some? ==> var (i, j) := FindOpen(s, d, 0).value;
      forall i', j' :: IsFirstMatch(s, d, i', j') <==> i' == i && j' == j
  {
    var r := FindOpen(s, d, 0);
    if r.Some? {
      var (i, j) := r.value;
      assert forall i', j' :: i' < 0 ==> !MatchAt(s, d, i', j');
      assert IsFirstMatch(s, d, i, j);
    }
  }

  /** The delimiter of array element `k` (0-based) is `k + 1` asterisks:
      `new Array(k + 2).join("*")`. */
  function Stars(n: nat): (r: string)
    ensures |r| == n
    ensures forall k :: 0 <= k < n ==> r[k] == '*'
  {
    if n == 0 then "" else Stars(n - 1) + "*"
  }

  /** Applying delimiter/wrapper pairs one after another. */
  function ApplySteps(s: string, steps: seq<(string, Wrapper)>): string
    decreases |steps|
  {
    if |steps| == 0 then s else ApplySteps(ApplyWrapper(s, steps[0].0, steps[0].1), steps[1..])
  }

  lemma FirstStep(s: string, steps: seq<(string, Wrapper)>)
    requires |steps| > 0
    ensures ApplySteps(s, steps) == ApplySteps(ApplyWrapper(s, steps[0].0, steps[0].1), steps[1..])
  {
  }

  /** Lines 130-131: `for (i = n; i; i--)` applies element `i - 1` with `i`
      asterisks. */
  function ApplyList(s: string, ws: seq<Wrapper>, i: nat): string
    requires i <= |ws|
    decreases i
  {
    if i == 0 then s else ApplyList(ApplyWrapper(s, Stars(i), ws[i - 1]), ws, i - 1)
  }

  /** The order an array of wrappers is applied in: the last element first,
      with the longest delimiter. */
  function ListPlan(ws: seq<Wrapper>): (plan: seq<(string, Wrapper)>)
    ensures |plan| == |ws|
    ensures forall t :: 0 <= t < |plan| ==> plan[t].0 == Stars(|ws| - t) && plan[t].1 == ws[|ws| - 1 - t]
  {
    seq(|ws|, t requires 0 <= t < |ws| => (Stars(|ws| - t), ws[|ws| - 1 - t]))
  }

  lemma {:induction false} ApplyListFollowsPlan(s: string, ws: seq<Wrapper>, i: nat)
    requires i <= |ws|
    ensures ApplyList(s, ws, i) == ApplySteps(s, ListPlan(ws[..i]))
    decreases i
  {
    if i > 0 {
      var s1 := ApplyWrapper(s, Stars(i), ws[i - 1]);
      ApplyListFollowsPlan(s1, ws, i - 1);
      PlanTail(ws, i);
      FirstStep(s, ListPlan(ws[..i]));
    }
  }

  /** The countdown's first step is the plan's head; the rest is the plan
      of the shorter prefix. */
  lemma PlanTail(ws: seq<Wrapper>, i: nat)
    requires 0 < i <= |ws|
    ensures |ListPlan(ws[..i])| > 0
    ensures ListPlan(ws[..i])[0] == (Stars(i), ws[i - 1])
    ensures ListPlan(ws[..i])[1..] == ListPlan(ws[..i - 1])
  {
    var plan := ListPlan(ws[..i]);
    assert plan[0] == (Stars(i), ws[i - 1]);
    assert plan[1..] == ListPlan(ws[..i - 1]);
  }

  predicate SortedByLengthDesc(ks: seq<string>)
  {
    forall a, b :: 0 <= a < b < |ks| ==> |ks[a]| >= |ks[b]|
  }

  /** Inserting `x` before the first key that is not longer than it. */
  function InsertByLength(x: string, ks: seq<string>): (r: seq<string>)
    ensures multiset(r) == multiset(ks) + multiset{x}
    ensures forall y :: y in r ==> y == x || y in ks
    ensures SortedByLengthDesc(ks) ==> SortedByLengthDesc(r)
    decreases |ks|
  {
    if |ks| == 0 || |x| >= |ks[0]| then
      [x] + ks
    else
      var rest := InsertByLength(x, ks[1..]);
      assert ks == [ks[0]] + ks[1..];
      LongestStaysInFront(x, ks, rest);
      [ks[0]] + rest
  }

  lemma LongestStaysInFront(x: string, ks: seq<string>, rest: seq<string>)
    requires |ks| > 0 && |x| < |ks[0]|
    requires forall y :: y in rest ==> y == x || y in ks[1..]
    requires SortedByLengthDesc(ks[1..]) ==> SortedByLengthDesc(rest)
    ensures SortedByLengthDesc(ks) ==> SortedByLengthDesc([ks[0]] + rest)
  {
    if !SortedByLengthDesc(ks) {
      return;
    }
    SortedTail(ks);
    var r := [ks[0]] + rest;
    forall a, b | 0 <= a < b < |r| ensures |r[a]| >= |r[b]| {
      assert r[b] == rest[b - 1] && rest[b - 1] in rest;
      if a == 0 && rest[b - 1] != x {
        HeadIsLongest(ks, rest[b - 1]);
      } else if a > 0 {
        assert r[a] == rest[a - 1];
      }
    }
  }

  /** `keys.sort(function(a, b) { return b.length - a.length; })`: longest
      first; keys of equal length keep their relative order. */
  function SortByLengthDesc(ks: seq<string>): (r: seq<string>)
    ensures multiset(r) == multiset(ks)
    ensures SortedByLengthDesc(r)
  {
    if |ks| == 0 then [] else
      assert ks == [ks[0]] + ks[1..];
      InsertByLength(ks[0], SortByLengthDesc(ks[1..]))
  }

  predicate NamedWellFormed(spec: WrapperSpec)
  {
    spec.Named? ==> forall k :: k in spec.order ==> k in spec.byDelimiter
  }

  /** The delimiters of a sequence of steps. */
  function Delimiters(plan: seq<(string, Wrapper)>): (ds: seq<string>)
    ensures |ds| == |plan| && forall t :: 0 <= t < |plan| ==> ds[t] == plan[t].0
  {
    seq(|plan|, t requires 0 <= t < |plan| => plan[t].0)
  }

  /** Each key with the wrapper the mapping holds for it. */
  function Pairs(keys: seq<string>, byDelimiter: map<string, Wrapper>): (plan: seq<(string, Wrapper)>)
    requires forall k :: k in keys ==> k in byDelimiter
    ensures |plan| == |keys|
    ensures forall t :: 0 <= t < |keys| ==> plan[t] == (keys[t], byDelimiter[keys[t]])
  {
    seq(|keys|, t requires 0 <= t < |keys| => (keys[t], byDelimiter[keys[t]]))
  }

  /** The delimiter/wrapper pairs of a mapping: every key once, with its
      wrapper, longest delimiter first. */
  function NamedPlan(order: seq<string>, byDelimiter: map<string, Wrapper>): (plan: seq<(string, Wrapper)>)
    requires forall k :: k in order ==> k in byDelimiter
    ensures multiset(Delimiters(plan)) == multiset(order)
    ensures SortedByLengthDesc(Delimiters(plan))
    ensures forall t :: 0 <= t < |plan| ==> plan[t].0 in byDelimiter && plan[t].1 == byDelimiter[plan[t].0]
  {
    var sorted := SortByLengthDesc(order);
    assert forall k :: k in sorted ==> k in multiset(order);
    var plan := Pairs(sorted, byDelimiter);
    assert Delimiters(plan) == sorted;
    plan
  }

  /** `applyWrappers`: a string is a one-element array; an array is applied
      from its last element to its first, element `k` with `k + 1`
      asterisks; a mapping is applied longest delimiter first. */
  function ApplyWrappers(s: string, spec: WrapperSpec): (r: string)
    requires NamedWellFormed(spec)
    ensures spec.Single? ==> r == ApplyWrapper(s, "*", Template(spec.text))
    ensures spec.List? ==> r == ApplySteps(s, ListPlan(spec.items))
    ensures spec.Named? ==> r == ApplySteps(s, NamedPlan(spec.order, spec.byDelimiter))
  {
    match spec
    case Single(t) =>
      assert Stars(1) == "*";
      assert ApplyList(s, [Template(t)], 1) == ApplyList(ApplyWrapper(s, "*", Template(t)), [Template(t)], 0);
      ApplyList(s, [Template(t)], 1)
    case List(ws) =>
      ApplyListFollowsPlan(s, ws, |ws|);
      assert ws[..|ws|] == ws;
      ApplyList(s, ws, |ws|)
    case Named(order, byDelimiter) =>
      ApplySteps(s, NamedPlan(order, byDelimiter))
  }

  /** Keys of different lengths never tie in the sort. */
  predicate LengthsDistinct(ks: seq<string>)
  {
    forall x, y :: x in ks && y in ks && |x| == |y| ==> x == y
  }

  lemma HeadIsLongest(a: seq<string>, x: string)
    requires SortedByLengthDesc(a) && x in a
    ensures |a[0]| >= |x|
  {
    var k :| 0 <= k < |a| && a[k] == x;
    if k > 0 {
      assert |a[0]| >= |a[k]|;
    }
  }

  lemma SortedTail(a: seq<string>)
    requires |a| > 0 && SortedByLengthDesc(a)
    ensures SortedByLengthDesc(a[1..])
  {
    forall i, j | 0 <= i < j < |a[1..]| ensures |a[1..][i]| >= |a[1..][j]| {
      assert a[1..][i] == a[i + 1] && a[1..][j] == a[j + 1];
    }
  }

  lemma TailMultiset(a: seq<string>, b: seq<string>)
    requires |a| > 0 && |b| > 0 && a[0] == b[0] && multiset(a) == multiset(b)
    ensures multiset(a[1..]) == multiset(b[1..])
  {
    assert a == [a[0]] + a[1..];
    assert b == [b[0]] + b[1..];
    assert multiset(a) == multiset{a[0]} + multiset(a[1..]);
    assert multiset(b) == multiset{b[0]} + multiset(b[1..]);
    forall x ensures multiset(a[1..])[x] == multiset(b[1..])[x] {
      assert multiset(a)[x] == multiset{a[0]}[x] + multiset(a[1..])[x];
      assert multiset(b)[x] == multiset{b[0]}[x] + multiset(b[1..])[x];
    }
  }

  /** With no two keys of one length, there is only one longest-first
      arrangement of a collection of keys. */
  lemma {:induction false} SortedArrangementUnique(a: seq<string>, b: seq<string>)
    requires SortedByLengthDesc(a) && SortedByLengthDesc(b)
    requires multiset(a) == multiset(b)
    requires LengthsDistinct(a)
    ensures a == b
    decreases |a|
  {
    assert |a| == |multiset(a)| == |multiset(b)| == |b|;
    if |a| > 0 {
      assert b[0] in multiset(b);
      assert b[0] in a;
      assert a[0] in multiset(a);
      assert a[0] in b;
      HeadIsLongest(a, b[0]);
      HeadIsLongest(b, a[0]);
      assert a[0] == b[0];
      TailMultiset(a, b);
      assert LengthsDistinct(a[1..]) by {
        forall x, y | x in a[1..] && y in a[1..] && |x| == |y| ensures x == y {
          assert x in a && y in a;
        }
      }
      SortedTail(a);
      SortedTail(b);
      SortedArrangementUnique(a[1..], b[1..]);
      forall i | 0 <= i < |a| ensures a[i] == b[i] {
        if i > 0 {
          assert a[i] == a[1..][i - 1] && b[i] == b[1..][i - 1];
        }
      }
    }
  }

  lemma SortsAgree(o1: seq<string>, o2: seq<string>)
    requires multiset(o1) == multiset(o2)
    requires LengthsDistinct(o1)
    ensures SortByLengthDesc(o1) == SortByLengthDesc(o2)
  {
    var s1 := SortByLengthDesc(o1);
    assert LengthsDistinct(s1) by {
      forall x, y | x in s1 && y in s1 && |x| == |y| ensures x == y {
        assert x in multiset(s1) && y in multiset(s1);
        assert x in o1 && y in o1;
      }
    }
    SortedArrangementUnique(s1, SortByLengthDesc(o2));
  }

  lemma SamePlan(o1: seq<string>, o2: seq<string>, byDelimiter: map<string, Wrapper>)
    requires forall k :: k in o1 ==> k in byDelimiter
    requires multiset(o1) == multiset(o2)
    requires LengthsDistinct(o1)
    ensures forall k :: k in o2 ==> k in byDelimiter
    ensures NamedPlan(o1, byDelimiter) == NamedPlan(o2, byDelimiter)
  {
    assert forall k :: k in o2 ==> k in multiset(o1);
    SortsAgree(o1, o2);
  }

  /** When no two delimiters have the same length, the order in which the
      mapping enumerates its keys does not change the result. */
  lemma NamedOrderIrrelevant(s: string, o1: seq<string>, o2: seq<string>, byDelimiter: map<string, Wrapper>)
    requires forall k :: k in o1 ==> k in byDelimiter
    requires multiset(o1) == multiset(o2)
    requires LengthsDistinct(o1)
    ensures forall k :: k in o2 ==> k in byDelimiter
    ensures ApplyWrappers(s, Named(o1, byDelimiter)) == ApplyWrappers(s, Named(o2, byDelimiter))
  {
    SamePlan(o1, o2, byDelimiter);
  }

  lemma StarSpanIsFirstMatch()
    ensures IsFirstMatch("a *b* c", "*", 2, 4)
  {
    var s := "a *b* c";
    assert MatchAt(s, "*", 2, 4);
    forall i, j | i < 2 ensures !MatchAt(s, "*", i, j) {
      if 0 <= i {
        assert s[i..i + 1] == [s[i]] != "*";
      }
    }
    forall j | j < 4 ensures !MatchAt(s, "*", 2, j) {
      if j == 3 {
        assert s[3..4] == "b";
      }
    }
  }

  lemma BoldTemplate()
    ensures ExpandTemplate("<b>$1</b>", "b") == "<b>b</b>"
  {
    assert "<b>" + "$1" + "</b>" == "<b>$1</b>";
    ExpandFirstGroup("<b>", "</b>", "b");
    ExpandWithoutGroup("</b>", "b");
    assert "<b>" + "b" + "</b>" == "<b>b</b>";
  }

  lemma OneStep(s: string, step: (string, Wrapper))
    ensures ApplySteps(s, [step]) == ApplyWrapper(s, step.0, step.1)
  {
    assert ApplySteps(s, [step]) == ApplySteps(ApplyWrapper(s, step.0, step.1), []);
  }

  lemma TwoSteps(s: string, first: (string, Wrapper), second: (string, Wrapper))
    ensures ApplySteps(s, [first, second]) == ApplyWrapper(ApplyWrapper(s, first.0, first.1), second.0, second.1)
  {
    assert [first, second][1..] == [second];
    OneStep(ApplyWrapper(s, first.0, first.1), second);
  }

  lemma StarIsMatch()
    ensures MatchAt("a *b* c", "*", 2, 4)
  {
    var s := "a *b* c";
    assert s[2..3] == "*" && s[4..5] == "*" && s[3] == 'b';
  }

  lemma StarPieces()
    ensures "a *b* c"[..2] == "a " && "a *b* c"[3..4] == "b" && "a *b* c"[5..] == " c"
  {
  }

  lemma BoldReplacement(w: Wrapper, m: string)
    requires w == Template("<b>$1</b>")
    ensures Replacement(w, m, "b") == "<b>b</b>"
  {
    BoldTemplate();
  }

  lemma ReplacedParts(s: string, d: string, w: Wrapper, i: int, j: int, before: string, mid: string, after: string)
    requires MatchAt(s, d, i, j)
    requires s[..i] == before && s[j + |d|..] == after
    requires Replacement(w, s[i..j + |d|], s[i + |d|..j]) == mid
    ensures Replaced(s, d, w, i, j) == before + mid + after
  {
  }

  lemma StarReplaced(s: string, w: Wrapper)
    requires s == "a *b* c" && w == Template("<b>$1</b>")
    ensures MatchAt(s, "*", 2, 4) && Replaced(s, "*", w, 2, 4) == "a <b>b</b> c"
  {
    StarIsMatch();
    StarPieces();
    BoldReplacement(w, s[2..5]);
    ReplacedParts(s, "*", w, 2, 4, "a ", "<b>b</b>", " c");
    BoldConcat();
  }

  lemma BoldConcat()
    ensures "a " + "<b>b</b>" + " c" == "a <b>b</b> c"
  {
    var r := "a " + "<b>b</b>" + " c";
    assert |r| == 12;
    forall k | 0 <= k < 12 ensures r[k] == "a <b>b</b> c"[k] {
    }
  }

  lemma StarReplacement(s: string, w: Wrapper)
    requires s == "a *b* c" && w == Template("<b>$1</b>")
    ensures ApplyWrapper(s, "*", w) == "a <b>b</b> c"
  {
    StarSpanIsFirstMatch();
    StarReplaced(s, w);
    assert IsFirstMatch(s, "*", 2, 4);
  }

  /** `applyWrappers("a *b* c", "<b>$1</b>")` and its one-element array form
      `["<b>$1</b>"]` both give `"a <b>b</b> c"`. */
  lemma SingleStarExample()
    ensures ApplyWrappers("a *b* c", Single("<b>$1</b>")) == "a <b>b</b> c"
    ensures ApplyWrappers("a *b* c", List([Template("<b>$1</b>")])) == "a <b>b</b> c"
  {
    var w := Template("<b>$1</b>");
    assert Stars(1) == "*";
    assert ListPlan([w]) == [("*", w)];
    OneStep("a *b* c", ("*", w));
    StarReplacement("a *b* c", w);
  }

  lemma SortOne(x: string)
    ensures SortByLengthDesc([x]) == [x]
  {
    assert [x][1..] == [];
    assert InsertByLength(x, []) == [x];
  }

  lemma SortPair(a: string, b: string)
    ensures SortByLengthDesc([a, b]) == InsertByLength(a, [b])
  {
    assert [a, b][0] == a && [a, b][1..] == [b];
    SortOne(b);
  }

  lemma InsertBehindLonger(x: string, y: string)
    requires |x| < |y|
    ensures InsertByLength(x, [y]) == [y, x]
  {
    assert [y][1..] == [];
    assert InsertByLength(x, [y]) == [y] + InsertByLength(x, []);
  }

  lemma SortTwoKeys(x: string, y: string)
    requires |x| < |y|
    ensures SortByLengthDesc([x, y]) == [y, x]
    ensures SortByLengthDesc([y, x]) == [y, x]
  {
    SortPair(x, y);
    InsertBehindLonger(x, y);
    SortPair(y, x);
    assert InsertByLength(y, [x]) == [y] + [x];
  }

  lemma TwoDelimiterPlans(star: Wrapper, double: Wrapper)
    ensures var byDelimiter := map["*" := star, "**" := double];
      && NamedPlan(["*", "**"], byDelimiter) == [("**", double), ("*", star)]
      && NamedPlan(["**", "*"], byDelimiter) == [("**", double), ("*", star)]
  {
    var byDelimiter := map["*" := star, "**" := double];
    SortTwoKeys("*", "**");
    assert NamedPlan(["*", "**"], byDelimiter) == Pairs(["**", "*"], byDelimiter);
    assert NamedPlan(["**", "*"], byDelimiter) == Pairs(["**", "*"], byDelimiter);
  }

  /** `**` spans are processed before `*` spans, whichever order the
      mapping lists the two delimiters in. */
  lemma LongestDelimiterFirstExample(s: string, star: Wrapper, double: Wrapper)
    ensures var byDelimiter := map["*" := star, "**" := double];
      && ApplyWrappers(s, Named(["*", "**"], byDelimiter)) == ApplyWrapper(ApplyWrapper(s, "**", double), "*", star)
      && ApplyWrappers(s, Named(["**", "*"], byDelimiter)) == ApplyWrapper(ApplyWrapper(s, "**", double), "*", star)
  {
    TwoDelimiterPlans(star, double);
    TwoSteps(s, ("**", double), ("*", star));
  }
}
